=== FILE: README.md ===
# Bookstore point-of-sale backend: dashboard, todo list and bearer gate

This project models three parts of a Hono/Prisma point-of-sale backend for a
school bookstore. It proves properties of each model in Dafny.

- **Dashboard data handlers** (`data/Dashboard.ts`). The three tables
  `buyers`, `sales_history` and `inventory_bookstore` are held in memory by
  the class `Store.Database`. Each Prisma call keeps its plain meaning:
  - `findUnique`/`findFirst` take the first match;
  - `create` appends a record with the next id;
  - `update` replaces one record;
  - `createMany` appends rows in order;
  - a `$transaction` is all-or-nothing.

  The handlers:
  - recording a sale (`Dashboard.CreateSalesData`): it resolves the buyer by
    RFID, then by name (`BuyerResolution.ResolveBuyer`), and appends one
    sale row per line item;
  - the batch stock decrement (`Dashboard.SubItemQuantityData`);
  - the revenue report (`Dashboard.GetRevenueData`, with the window, price
    and sum functions in `Revenue`);
  - the buyer drop-down (`BuyerNames`);
  - the top-five products (`TopSold`).
- **The in-memory todo list** (`data/todos.ts`). This is `Todos.TodoList`, a
  class whose `todos` sequence is appended to, updated at an index and
  spliced. `FindIndex` is the `findIndex` loop.
- **The bearer gate** (`middleware/authentication.ts`). `Authentication`
  takes `split("Bearer ")[1]` of the `Authorization` header and decides
  between 401 and calling `next`.

Request fields are parameters of the handlers: JSON body fields, query
strings, path ids and header values. Each handler returns the response it
would send as a datatype with a `Status()`. Absent JSON values are
`Option.None`. The current time is a parameter: a `Revenue.Clock` reading
that gives the day number, the time of day, the weekday and the day of the
month. The database's default `now()` for a sale date is the `now`
parameter of `CreateSalesData`.

Behaviour the code does not have, and the model therefore does not have
either:
- there is no `weekly-revenue` period: only `day`, `week` and `month` are
  accepted, and any other value is refused;
- a name/RFID conflict is not retried by re-reading: a uniqueness error
  becomes a 409;
- the item list is not checked beyond being an array: an empty list is
  accepted and quantities are not checked for sign;
- there is no per-weekday revenue array: the report has only the total
  and the sales list.

## Model

| member | source | states |
|---|---|---|
| Common.FirstIndex | data/Dashboard.ts:104-106 | The first index whose element satisfies the predicate, or none exactly when no element does. This is the meaning of every `findUnique`/`findFirst`/`find`/`findIndex`. |
| Store.Database.CreateBuyer | data/Dashboard.ts:121-123 | `buyers.create` appends a buyer with the next id and the given name and RFID. It changes nothing else and keeps the unique constraints. |
| Store.Database.UpdateBuyerRfid | data/Dashboard.ts:115-118 | `buyers.update` sets the RFID of the buyer with the given id, in place. Every other buyer and every other table are unchanged. |
| Store.Database.CreateManySales | data/Dashboard.ts:154-156 | `createMany` appends the rows in order, each with a fresh consecutive sale id and the current time as its date. Earlier rows are unchanged. |
| Store.BuyerIndexOf | data/Dashboard.ts:116 | Under the unique constraints, looking a buyer up by its own id finds that buyer. |
| BuyerResolution.ResolveBuyer | data/Dashboard.ts:100-139 | The buyer decision of a sale request. Its own contract: the table grows by at most one buyer and the next id grows by the same amount. Its branches are stated by the lemmas below. |
| BuyerResolution.ResolveKeepsValid | data/Dashboard.ts:100-139 | Buyer resolution preserves the uniqueness of buyer ids, of names and of non-null RFIDs. It never lowers the next id. |
| BuyerResolution.ResolveWritesAtMostOne | data/Dashboard.ts:100-139 | Resolution deletes no buyer. It either leaves the table as is, appends one buyer, or changes one existing buyer, and then only by giving a null RFID a value. |
| BuyerResolution.ResolvedBuyerPresent | data/Dashboard.ts:141-143 | The resolved buyer id is always in the resulting table, so the "Buyer not found" 404 cannot happen. |
| BuyerResolution.RfidHolderSelected | data/Dashboard.ts:102-106 | A truthy RFID that a buyer holds selects that buyer whatever the name, and leaves the table unchanged. |
| BuyerResolution.NamePathSelected | data/Dashboard.ts:128-132 | A falsy RFID (absent, null or 0) selects the buyer with the requested name unchanged, whatever RFID that buyer holds. |
| BuyerResolution.NamePathCreates | data/Dashboard.ts:134-138 | A falsy RFID and an unknown name append a name-only buyer with the next id. |
| BuyerResolution.UnheldRfidOutcomes | data/Dashboard.ts:108-124 | A truthy RFID that no buyer holds has three outcomes. A name match with a null RFID gains the RFID and keeps its id. A name match with another RFID is used unchanged. With no name match, a buyer is created with both name and RFID. |
| BuyerResolution.ResolveIdempotent | data/Dashboard.ts:100-139 | Resolving the same request again picks the same buyer and writes nothing. |
| Dashboard.FindOrCreateBuyer | data/Dashboard.ts:100-139 | The store's buyers table and next id end as `ResolveBuyer` decides, and the returned buyer has the resolved id. Sales and inventory are unchanged. |
| Dashboard.CreateSalesData | data/Dashboard.ts:92-160 | A falsy `buyerName` or missing `itemsBought` gives 400 and changes no table. Otherwise the buyers table is the resolution's. Sales grow by one row per item, in order, after the old rows, and the next sale id by the number of items. Each row carries the resolved buyer id, the item's name and quantity, and the request's RFID (null when falsy). The inventory never changes. |
| Dashboard.ValidPayload | data/Dashboard.ts:96-98 | The payload check: a non-empty `buyerName` and an `itemsBought` array. `Dashboard.CreateSalesData` states that failing it gives 400 with no write. |
| Dashboard.Demand | data/Dashboard.ts:70-76 | The summed quantity the cart takes from one product id. `Dashboard.SubItemQuantityData` states each quantity drops by it, and `Dashboard.DemandOfUnlisted` that it is 0 for an unlisted id. |
| Dashboard.DemandOfUnlisted | data/Dashboard.ts:69-80 | A product the cart does not list has a demand of zero, so its quantity does not change. |
| Dashboard.SubItemQuantityData | data/Dashboard.ts:63-85 | Success happens exactly when every cart id is in the inventory. Then each product's quantity drops by the sum of the cart quantities for its id, with no floor at zero. Otherwise no quantity changes. Buyers and sales never change. |
| Dashboard.GetRevenueData | data/Dashboard.ts:200-284 | A period other than `day`/`week`/`month` gives 400. Otherwise the report carries the period's window and the reference total of the sales in the window at catalogue prices. The sales list has one formatted row per included sale, in order. |
| Revenue.ParsePeriod | data/Dashboard.ts:208-224 | A period is accepted exactly when the query is `day`, `week` or `month`. |
| Revenue.WindowFor | data/Dashboard.ts:205-221 | The window ends now and starts at a midnight no later than now. For `day` that midnight is today's. For `week` it is that of the most recent day with weekday 0 (Sunday), less than 7 days back. For `month` it is that of the day whose day of the month is 1. |
| Revenue.WindowsNest | data/Dashboard.ts:208-221 | The day window starts no earlier than the week and month windows, and all three end now. |
| Revenue.SalesInWindow | data/Dashboard.ts:227-233 | A sale is included exactly when it has a date with start ≤ date ≤ end, and it is included as many times as it occurs in the table, no more. |
| Revenue.DaySalesInLongerPeriods | data/Dashboard.ts:208-233 | A sale in the table dated between today's midnight and now is in today's report, and also in the week's and the month's. |
| Revenue.LastPriceIsLastEntry | data/Dashboard.ts:258-261 | A price is found exactly when the name is in the catalogue, and it is the price of the last entry with that name. |
| Revenue.CatalogFor | data/Dashboard.ts:244-255 | The catalogue rows whose name is among the sold names: no more rows than the inventory, each one an inventory row with a sold name. `Revenue.CatalogForKeepsPrices` states it keeps every sold product's price. |
| Revenue.CatalogForKeepsPrices | data/Dashboard.ts:244-255 | Restricting the catalogue to the sold names changes the price of no sold product. |
| Revenue.BuildPriceMap | data/Dashboard.ts:258-261 | The filled map has a key exactly for each catalogue name, holding the price of that name's last entry. |
| Revenue.ReduceRevenue | data/Dashboard.ts:264-267 | The left-to-right `reduce` with the map's price, or 0 for a name the map lacks. `Revenue.ReduceMatchesTotal` states it equals the reference total. |
| Revenue.ReduceMatchesTotal | data/Dashboard.ts:264-267 | The left-to-right `reduce` with the map's price (0 when absent) equals the reference sum of quantity × unit price. |
| Revenue.BuyerNameOf | data/Dashboard.ts:272 | The name shown is never empty. A buyer found by the sale's buyer id with a non-empty name is shown by that name; a name other than `Unknown Buyer` is always such a buyer's; `Unknown Buyer` is shown when no buyer has the id. |
| Revenue.FormatSale | data/Dashboard.ts:270-276 | One row of the sales list: the sale's id, name, quantity and date, with the buyer name as `Revenue.BuyerNameOf` states. |
| BuyerNames.Split | data/Dashboard.ts:52-53 | `split(' ')` gives at least one part. No part contains a space, and joining the parts with spaces gives back the name. |
| BuyerNames.FirstName | data/Dashboard.ts:52 | `split(' ')[0]`: contains no space. `BuyerNames.NameTokens` states it is the text before the first space. |
| BuyerNames.LastName | data/Dashboard.ts:53 | `split(' ')[1]`, or empty when there is no second part: contains no space. `BuyerNames.NameTokens` states it is the second token, and `BuyerNames.SingleToken` that it is empty without a space. |
| BuyerNames.NameTokens | data/Dashboard.ts:52-53 | `fname` is the text before the first space. `lname` is the text between the first and the second space (or the end). Later tokens are dropped. |
| BuyerNames.SingleToken | data/Dashboard.ts:52-53 | A name without a space is all first name, with an empty last name. |
| BuyerNames.ExistingBuyers | data/Dashboard.ts:39-54 | An entry appears exactly when it is the split form of a buyer whose RFID is null. There are no more entries than buyers. |
| BuyerNames.ExistingBuyersConcat | data/Dashboard.ts:39-54 | The listing keeps table order: listing two consecutive parts of the table gives each part's entries one after the other. |
| TopSold.ProductNames | data/Dashboard.ts:175-176 | The groups are exactly the product names that occur in the sales, each once. |
| TopSold.SortDescSortedDistinct | data/Dashboard.ts:180-184 | The sort orders groups by decreasing total and repeats no group. |
| TopSold.TopSoldItems | data/Dashboard.ts:173-191 | The response: at most five entries. `TopSold.TopSoldEntries` and `TopSold.TopSoldComplete` state its contents and order. |
| TopSold.TopSoldEntries | data/Dashboard.ts:173-191 | The list has min(5, number of products sold) entries. They are in decreasing order of total, for distinct products that were sold, each with its summed quantity. |
| TopSold.TopSoldComplete | data/Dashboard.ts:180-185 | No product left out of the list sold more than any listed product. |
| Todos.TodoList.constructor | data/todos.ts:4-7 | The list starts with todos 1 "Learn Hono" and 2 "Build a Todo API", both not completed. |
| Todos.TodoList.FindIndex | data/todos.ts:46 | The result is -1 exactly when `Common.FirstIndex` with the test `t.id == id` finds nothing. Otherwise it is the index `FirstIndex` gives, that of the first entry with the id. |
| Todos.TodoList.GetTodo | data/todos.ts:13-20 | It answers 404 exactly when no entry has the id. Otherwise it returns the first entry with the id, the one at the index `Common.FirstIndex` gives. The list is not changed. |
| Todos.TodoList.CreateTodo | data/todos.ts:22-33 | A missing or empty title gives 400 and leaves the list unchanged. Otherwise `{id: old length + 1, title, completed: false}` is appended at the end and returned with 201. |
| Todos.Patched | data/todos.ts:51 | `{ ...todo, ...body }` for the body's `title`/`completed`: the id is kept; a `title` or `completed` present in the body overwrites the todo's field, and an absent one keeps it; an empty body leaves the todo as it was. |
| Todos.TodoList.UpdateTodo | data/todos.ts:41-52 | With no entry for the id: 404 and the list is unchanged. Otherwise only the first matching entry is replaced, by the entry with the body's fields overwriting its own. |
| Todos.TodoList.DeleteTodo | data/todos.ts:60-67 | With no entry for the id: 404 and the list is unchanged. Otherwise exactly the first matching entry is removed and returned, and the rest keep their order. |
| Todos.CreateAfterDeleteReusesId | data/todos.ts:30 | On a list numbered 1..n, deleting any entry but the last and then creating one gives the new todo an id that the last entry still has. |
| Authentication.IndexOf | middleware/authentication.ts:6 | The first occurrence of the pattern at or after the start position, or none exactly when there is none. |
| Authentication.IndexOfFirst | middleware/authentication.ts:6 | An occurrence with none before it (from the start position) is what `IndexOf` returns. |
| Authentication.AccessToken | middleware/authentication.ts:6 | `split("Bearer ")[1]` of the header: a token exists only for a present header and is shorter than it by at least the prefix. `Authentication.AccessTokenSpec` states exactly which text it is. |
| Authentication.AccessTokenSpec | middleware/authentication.ts:6 | There is a token exactly when the header is present and contains `"Bearer "` anywhere. The token is the text after the first occurrence, up to the next occurrence or the end. |
| Authentication.AuthenticateSpec | middleware/authentication.ts:6-12 | `next` is called exactly when the header is present and its first `"Bearer "` is followed by a character that does not start another `"Bearer "`. Every other case answers 401. |
| Authentication.Authenticate | middleware/authentication.ts:8-12 | 401 or `next`: `next` is called only for a present header longer than the prefix. `Authentication.AuthenticateSpec` states exactly when. |
| Authentication.PrefixAloneRefused | middleware/authentication.ts:8-10 | A header of exactly `"Bearer "` carries an empty token and gets 401. |
| Authentication.PrefixNeedNotLead | middleware/authentication.ts:6-12 | `"Token Bearer abc"` carries the token `abc` and is let through. |

## Left out

- Unique-constraint errors and catch-alls. The 500 at data/Dashboard.ts:83-85 is modelled for an unknown product id (`UpdateFailed`); other errors there, the 409 answer on a P2002 error and the catch-alls at data/Dashboard.ts:162-169, 194-197 and 285-288 are not. Buyer creation and RFID update require the constraints to hold, and `CreateSalesData` is proved to meet those requirements, so a sequential model never reaches the error.
- The buyer write and `createMany` are two separate writes, not one transaction. In the model `createMany` cannot fail, so the partial state they could leave is not observable.
- `getUserNameData` reads the `user` table, which is not part of this model.
- `$disconnect` (data/Dashboard.ts:87) is client lifecycle with no effect on the data.
- Calendar arithmetic. `setHours`, `setDate` and `new Date(y, m, 1)` in the local time zone are replaced by the `Clock` parameter, which supplies the day number, the weekday and the day of the month. Month and year rollover and daylight-saving days are not modelled.
- Selling prices are decimals converted with `Number`. The model uses integers, so floating-point rounding of the total is not modelled.
- `BigInt(rfid)` conversion and its failures are not modelled. A request RFID is an optional integer, so a string RFID such as `"0"` (truthy in JavaScript) cannot be expressed.
- JSON parsing is not modelled. A non-array `itemsBought` is represented as an absent one. Fields outside `title`/`completed` in a todo update body (which the spread would also copy, including `id`) are not modelled.
- Path ids are integers. `Number` of a non-numeric id gives `NaN`, which matches no todo, the same as an absent id.
- `getTodosData` returns the list as it is and has no logic to state.
- TopSold.TopSoldEntries: the order between products with equal totals is not stated. It is whatever the database's `groupBy` returns, while the model's sort puts tied products in reverse order of first sale.
- TopSold.TopSoldEntries: `_sum.quantity || 0` is not modelled separately. Every group has at least one sale, so the sum is never null in the model.
- Dashboard.GetRevenueData: the report's sales, and the catalogue rows the price map is filled from, are taken in table order. Neither query has an `orderBy`, so the database's order is not stated; with a product name listed twice, which price "the last entry" gives depends on that order.
- BuyerNames.ExistingBuyers: its own contract states membership only. Table order is stated by `BuyerNames.ExistingBuyersConcat`.

=== FILE: authentication.dfy ===
/** The bearer-token gate in front of the todo routes. It takes the text
    after the first `"Bearer "` in the `Authorization` header, up to the
    next `"Bearer "` or the end, and lets the request through when that
    text is non-empty. The token itself is not checked. */
module Authentication {
  import opened Common

  const Prefix: string := "Bearer "

  predicate OccursAt(s: string, pat: string, k: nat)
  {
    k + |pat| <= |s| && s[k..k + |pat|] == pat
  }

  /** `s.indexOf(pat, from)`, as an optional index. */
  function IndexOf(s: string, pat: string, from: nat): (r: Option<nat>)
    decreases |s| - from
    ensures r.Some? ==> from <= r.value && OccursAt(s, pat, r.value)
    ensures r.Some? ==> forall k: nat :: from <= k < r.value ==> !OccursAt(s, pat, k)
    ensures r.None? ==> forall k: nat :: from <= k ==> !OccursAt(s, pat, k)
  {
    if from + |pat| > |s| then None
    else if s[from..from + |pat|] == pat then Some(from)
    else IndexOf(s, pat, from + 1)
  }

  /** `header?.split("Bearer ")[1]`: the text between the first and the
      second occurrence of the prefix, or from the first to the end. */
  function AccessToken(header: Option<string>): (token: Option<string>)
    ensures token.Some? ==> header.Some? && |token.value| + |Prefix| <= |header.value|
  {
    match header
    case None => None
    case Some(h) =>
      match IndexOf(h, Prefix, 0)
      case None => None
      case Some(i) =>
        var start := i + |Prefix|;
        match IndexOf(h, Prefix, start)
        case None => Some(h[start..])
        case Some(j) => Some(h[start..j])
  }

  /** The prefix first occurs at `i`. */
  ghost predicate FirstOccurrence(h: string, i: nat)
  {
    OccursAt(h, Prefix, i) && forall k: nat :: k < i ==> !OccursAt(h, Prefix, k)
  }

  /** `token` starts at `start` and runs to the next prefix or the end. */
  ghost predicate TokenAt(h: string, start: nat, token: string)
  {
    && start + |token| <= |h| && h[start..start + |token|] == token
    && (start + |token| == |h| || OccursAt(h, Prefix, start + |token|))
    && forall k: nat :: start <= k < start + |token| ==> !OccursAt(h, Prefix, k)
  }

  /** IndexOf returns the first occurrence at or after `from`, whichever
      way it was found. */
  lemma IndexOfFirst(s: string, pat: string, from: nat, i: nat)
    requires from <= i && OccursAt(s, pat, i)
    requires forall k: nat :: from <= k < i ==> !OccursAt(s, pat, k)
    ensures IndexOf(s, pat, from) == Some(i)
  {
  }

  /** There is a token exactly when the header is present and contains the
      prefix anywhere; it is the text after the first occurrence, up to the
      next one or the end. */
  lemma AccessTokenSpec(header: Option<string>)
    ensures AccessToken(header).None? <==>
              header.None? || forall k: nat :: !OccursAt(header.value, Prefix, k)
    ensures AccessToken(header).Some? ==>
              exists i: nat :: FirstOccurrence(header.value, i) &&
                               TokenAt(header.value, i + |Prefix|, AccessToken(header).value)
  {
    if header.Some? {
      var h := header.value;
      match IndexOf(h, Prefix, 0)
      case None =>
        assert forall k: nat :: !OccursAt(h, Prefix, k);
      case Some(i) =>
        assert OccursAt(h, Prefix, i);
        assert FirstOccurrence(h, i);
        var start := i + |Prefix|;
        match IndexOf(h, Prefix, start)
        case None =>
          assert TokenAt(h, start, h[start..]);
        case Some(j) =>
          assert TokenAt(h, start, h[start..j]);
    }
  }

  /** What the middleware does: answer 401, or call `next` once. */
  datatype Decision = Unauthorized | CallNext
  {
    /** 401, or 200 standing for "passed on": the middleware sends no
        response of its own then, and the status is the next handler's. */
    function Status(): int { if Unauthorized? then 401 else 200 }
  }

  function Authenticate(header: Option<string>): (d: Decision)
    ensures d == CallNext ==> header.Some? && |Prefix| < |header.value|
  {
    match AccessToken(header)
    case Some(token) => if token != [] then CallNext else Unauthorized
    case None => Unauthorized
  }

  /** The request goes through exactly when the header holds the prefix and
      the first occurrence is followed by at least one character that does
      not start another prefix. */
  lemma AuthenticateSpec(header: Option<string>)
    ensures Authenticate(header) == CallNext <==>
              && header.Some?
              && exists i: nat :: && FirstOccurrence(header.value, i)
                                  && i + |Prefix| < |header.value|
                                  && !OccursAt(header.value, Prefix, i + |Prefix|)
  {
    if header.Some? {
      var h := header.value;
      match IndexOf(h, Prefix, 0)
      case None =>
        assert forall i: nat :: !OccursAt(h, Prefix, i);
      case Some(i) =>
        assert FirstOccurrence(h, i);
        forall i': nat | FirstOccurrence(h, i') ensures i' == i {
        }
        var start := i + |Prefix|;
        match IndexOf(h, Prefix, start)
        case None =>
        case Some(j) =>
          if OccursAt(h, Prefix, start) {
            IndexOfFirst(h, Prefix, start, start);
          }
    }
  }

  /** A header that is exactly the prefix carries an empty token and is
      refused. */
  lemma PrefixAloneRefused()
    ensures AccessToken(Some(Prefix)) == Some([])
    ensures Authenticate(Some(Prefix)) == Unauthorized
  {
    assert IndexOf(Prefix, Prefix, 0) == Some(0);
    assert IndexOf(Prefix, Prefix, |Prefix|) == None;
    assert Prefix[|Prefix|..] == [];
  }

  /** The prefix need not open the header. */
  lemma PrefixNeedNotLead()
    ensures AccessToken(Some("Token Bearer abc")) == Some("abc")
    ensures Authenticate(Some("Token Bearer abc")) == CallNext
  {
    var h := "Token Bearer abc";
    assert h[6..13] == Prefix;
    forall k: nat | k < 6 ensures !OccursAt(h, Prefix, k) {
      assert h[k] != 'B';
    }
    IndexOfFirst(h, Prefix, 0, 6);
    assert IndexOf(h, Prefix, 13) == None;
    assert h[13..] == "abc";
  }
}

=== FILE: buyer_names.dfy ===
/** The buyer drop-down: the buyers without an RFID, each with its name
    split at spaces into a first and a last name, as JavaScript's
    `split(' ')` does. */
module BuyerNames {
  import opened Store

  const Space: char := ' '

  /** Puts the parts back together with the separator between them. */
  function Join(parts: seq<string>, sep: char): string
  {
    if |parts| == 0 then []
    else if |parts| == 1 then parts[0]
    else parts[0] + [sep] + Join(parts[1..], sep)
  }

  /** `s.split(sep)` for a one-character separator: the text between
      consecutive separators, empty parts included. */
  function Split(s: string, sep: char): (parts: seq<string>)
    ensures |parts| >= 1
    ensures Join(parts, sep) == s
    ensures forall i :: 0 <= i < |parts| ==> sep !in parts[i]
  {
    if s == [] then [[]]
    else
      var rest := Split(s[1..], sep);
      if s[0] == sep then
        assert ([[]] + rest)[1..] == rest;
        [[]] + rest
      else
        var parts := [[s[0]] + rest[0]] + rest[1..];
        assert parts[1..] == rest[1..];
        assert |rest| > 1 ==> Join(rest, sep) == rest[0] + [sep] + Join(rest[1..], sep);
        assert s == [s[0]] + s[1..];
        parts
  }

  /** A text without separators followed by nothing or by a separator
      is the first part of the split, and the rest splits on its own. */
  lemma {:induction false} SplitHead(head: string, tail: string, sep: char)
    requires sep !in head
    requires tail == [] || tail[0] == sep
    ensures Split(head + tail, sep)[0] == head
    ensures tail != [] ==> Split(head + tail, sep)[1..] == Split(tail[1..], sep)
  {
    if head == [] {
      assert head + tail == tail;
    } else {
      assert (head + tail)[1..] == head[1..] + tail;
      SplitHead(head[1..], tail, sep);
    }
  }

  /** `buyer_name.split(' ')[0]`. */
  function FirstName(name: string): (fname: string)
    ensures Space !in fname
  {
    Split(name, Space)[0]
  }

  /** `buyer_name.split(' ')[1] || ''`. */
  function LastName(name: string): (lname: string)
    ensures Space !in lname
  {
    var parts := Split(name, Space);
    if |parts| > 1 then parts[1] else []
  }

  /** The first name is the text before the first space and the last name
      the text between the first and the second space (or the end); the
      rest of the name is dropped. */
  lemma NameTokens(first: string, last: string, rest: string)
    requires Space !in first && Space !in last
    requires rest == [] || rest[0] == Space
    ensures FirstName(first + [Space] + last + rest) == first
    ensures LastName(first + [Space] + last + rest) == last
  {
    var name := first + [Space] + last + rest;
    assert name == first + ([Space] + last + rest);
    SplitHead(first, [Space] + last + rest, Space);
    assert ([Space] + last + rest)[1..] == last + rest;
    SplitHead(last, rest, Space);
  }

  /** A name without a space is all first name, with an empty last name. */
  lemma SingleToken(name: string)
    requires Space !in name
    ensures FirstName(name) == name && LastName(name) == []
  {
    assert name + [] == name;
    SplitHead(name, [], Space);
  }

  /** One entry of the drop-down. */
  datatype BuyerOption = BuyerOption(buyerId: nat, fname: string, lname: string)

  function AsOption(b: Buyer): BuyerOption
  {
    BuyerOption(b.buyerId, FirstName(b.buyerName), LastName(b.buyerName))
  }

  /** The response of `Buyerdropdown`: the buyers whose RFID is null, in
      table order, with their names split. */
  function ExistingBuyers(buyers: seq<Buyer>): (options: seq<BuyerOption>)
    ensures |options| <= |buyers|
    ensures forall o :: o in options <==>
              exists i :: 0 <= i < |buyers| && buyers[i].rfid.None? && o == AsOption(buyers[i])
  {
    if buyers == [] then []
    else
      var rest := ExistingBuyers(buyers[1..]);
      assert forall i :: 0 <= i < |buyers[1..]| ==> buyers[1..][i] == buyers[i + 1];
      if buyers[0].rfid.None? then [AsOption(buyers[0])] + rest else rest
  }

  /** The drop-down keeps table order: the entries for two consecutive
      parts of the table are the entries of each part, one after the
      other. */
  lemma {:induction false} ExistingBuyersConcat(front: seq<Buyer>, back: seq<Buyer>)
    ensures ExistingBuyers(front + back) == ExistingBuyers(front) + ExistingBuyers(back)
  {
    if front != [] {
      assert (front + back)[1..] == front[1..] + back;
      ExistingBuyersConcat(front[1..], back);
    } else {
      assert front + back == back;
    }
  }
}

=== FILE: buyer_resolution.dfy ===
/** How a sale request picks its buyer: first by RFID, then by name,
    attaching the RFID to a name-only buyer or creating a new buyer
    when neither key is known. The decision is a function of the
    `buyers` table; Dashboard.CreateSalesData carries it out with the
    store's create and update operations. */
module BuyerResolution {
  import opened Common
  import opened Store

  /** JavaScript truthiness of the request's `rfid`: absent, null and 0 are
      falsy. */
  predicate Truthy(rfid: Option<int>)
  {
    rfid.Some? && rfid.value != 0
  }

  /** The `rfid` column written on each sale row: the request's RFID, or
      null when it is falsy. */
  function SaleRfid(rfid: Option<int>): Option<int>
  {
    if Truthy(rfid) then rfid else None
  }

  /** The buyers table after resolution, the next buyer id, and the id of
      the buyer the sale is recorded under. */
  datatype Resolution = Resolution(buyers: seq<Buyer>, nextBuyerId: nat, buyerId: nat)

  function ResolveBuyer(buyers: seq<Buyer>, nextBuyerId: nat, name: string, rfid: Option<int>): (res: Resolution)
    ensures |buyers| <= |res.buyers| <= |buyers| + 1
    ensures res.nextBuyerId == nextBuyerId + (|res.buyers| - |buyers|)
  {
    if Truthy(rfid) then
      match RfidHolder(buyers, rfid.value)
      case Some(h) => Resolution(buyers, nextBuyerId, buyers[h].buyerId)
      case None =>
        match NamedBuyer(buyers, name)
        case Some(n) =>
          if buyers[n].rfid.None? then
            Resolution(buyers[n := buyers[n].(rfid := rfid)], nextBuyerId, buyers[n].buyerId)
          else
            Resolution(buyers, nextBuyerId, buyers[n].buyerId)
        case None =>
          Resolution(buyers + [Buyer(nextBuyerId, name, rfid)], nextBuyerId + 1, nextBuyerId)
    else
      match NamedBuyer(buyers, name)
      case Some(n) => Resolution(buyers, nextBuyerId, buyers[n].buyerId)
      case None => Resolution(buyers + [Buyer(nextBuyerId, name, None)], nextBuyerId + 1, nextBuyerId)
  }

  /** Resolution keeps the unique constraints on buyer id, name and
      non-null RFID. */
  lemma ResolveKeepsValid(buyers: seq<Buyer>, nextBuyerId: nat, name: string, rfid: Option<int>)
    requires BuyersValid(buyers, nextBuyerId)
    ensures var res := ResolveBuyer(buyers, nextBuyerId, name, rfid);
            BuyersValid(res.buyers, res.nextBuyerId) && nextBuyerId <= res.nextBuyerId
  {
    var res := ResolveBuyer(buyers, nextBuyerId, name, rfid);
    if Truthy(rfid) && RfidHolder(buyers, rfid.value).None? {
      match NamedBuyer(buyers, name)
      case Some(n) =>
        if buyers[n].rfid.None? {
          forall i, j | 0 <= i < j < |res.buyers|
            ensures res.buyers[i].rfid.Some? ==> res.buyers[i].rfid != res.buyers[j].rfid
          {
            assert !(((b: Buyer) => b.rfid == Some(rfid.value)))(buyers[i]);
            assert !(((b: Buyer) => b.rfid == Some(rfid.value)))(buyers[j]);
          }
        }
      case None =>
        forall i | 0 <= i < |buyers|
          ensures buyers[i].buyerName != name && buyers[i].rfid != rfid
        {
          assert !(((b: Buyer) => b.buyerName == name))(buyers[i]);
          assert !(((b: Buyer) => b.rfid == Some(rfid.value)))(buyers[i]);
        }
    } else if !Truthy(rfid) && NamedBuyer(buyers, name).None? {
      forall i | 0 <= i < |buyers| ensures buyers[i].buyerName != name {
        assert !(((b: Buyer) => b.buyerName == name))(buyers[i]);
      }
    }
  }

  /** At most one buyer is written and none is deleted: either the table
      is unchanged, or one buyer is appended, or exactly one existing
      buyer changes, and then only by gaining an RFID it did not have. */
  lemma ResolveWritesAtMostOne(buyers: seq<Buyer>, nextBuyerId: nat, name: string, rfid: Option<int>)
    ensures var after := ResolveBuyer(buyers, nextBuyerId, name, rfid).buyers;
            && (|after| == |buyers| || (|after| == |buyers| + 1 && after[..|buyers|] == buyers))
            && (forall i, j :: 0 <= i < |buyers| && 0 <= j < |buyers| && i != j && after[i] != buyers[i] ==>
                  after[j] == buyers[j])
            && (forall i :: 0 <= i < |buyers| && after[i] != buyers[i] ==>
                  after[i] == buyers[i].(rfid := after[i].rfid) && buyers[i].rfid.None? && after[i].rfid.Some?)
  {
  }

  /** The buyer a sale is recorded under is always in the resulting
      table, so the "Buyer not found" answer cannot occur. */
  lemma ResolvedBuyerPresent(buyers: seq<Buyer>, nextBuyerId: nat, name: string, rfid: Option<int>)
    ensures var res := ResolveBuyer(buyers, nextBuyerId, name, rfid);
            exists i :: 0 <= i < |res.buyers| && res.buyers[i].buyerId == res.buyerId
  {
    var res := ResolveBuyer(buyers, nextBuyerId, name, rfid);
    if |res.buyers| == |buyers| + 1 {
      ResolveWritesAtMostOne(buyers, nextBuyerId, name, rfid);
      assert res.buyers[|buyers|].buyerId == res.buyerId;
    } else if Truthy(rfid) && RfidHolder(buyers, rfid.value).Some? {
      assert res.buyers[RfidHolder(buyers, rfid.value).value].buyerId == res.buyerId;
    } else {
      assert res.buyers[NamedBuyer(buyers, name).value].buyerId == res.buyerId;
    }
  }

  /** A truthy RFID already held by a buyer selects that buyer, whatever
      the requested name, and leaves the table unchanged. */
  lemma RfidHolderSelected(buyers: seq<Buyer>, nextBuyerId: nat, name: string, tag: int, i: nat)
    requires BuyersValid(buyers, nextBuyerId)
    requires tag != 0 && i < |buyers| && buyers[i].rfid == Some(tag)
    ensures ResolveBuyer(buyers, nextBuyerId, name, Some(tag)) == Resolution(buyers, nextBuyerId, buyers[i].buyerId)
  {
    assert (((b: Buyer) => b.rfid == Some(tag)))(buyers[i]);
    var h := RfidHolder(buyers, tag);
    assert h.Some? && h.value <= i;
  }

  /** A falsy RFID (absent, null or 0) takes the name path: the buyer with
      the requested name is used unchanged, whatever RFID it holds. */
  lemma NamePathSelected(buyers: seq<Buyer>, nextBuyerId: nat, name: string, rfid: Option<int>, i: nat)
    requires BuyersValid(buyers, nextBuyerId)
    requires !Truthy(rfid) && i < |buyers| && buyers[i].buyerName == name
    ensures ResolveBuyer(buyers, nextBuyerId, name, rfid) == Resolution(buyers, nextBuyerId, buyers[i].buyerId)
  {
    assert (((b: Buyer) => b.buyerName == name))(buyers[i]);
    var n := NamedBuyer(buyers, name);
    assert n.Some? && n.value <= i;
  }

  /** A falsy RFID and an unknown name create a name-only buyer with the
      next id. */
  lemma NamePathCreates(buyers: seq<Buyer>, nextBuyerId: nat, name: string, rfid: Option<int>)
    requires !Truthy(rfid)
    requires forall k :: 0 <= k < |buyers| ==> buyers[k].buyerName != name
    ensures ResolveBuyer(buyers, nextBuyerId, name, rfid)
         == Resolution(buyers + [Buyer(nextBuyerId, name, None)], nextBuyerId + 1, nextBuyerId)
  {
  }

  /** A truthy RFID that no buyer holds: a name-only buyer with the
      requested name gains the RFID and keeps its id; a buyer with the
      requested name and another RFID is used unchanged; with no such
      name a buyer is created with both name and RFID. */
  lemma UnheldRfidOutcomes(buyers: seq<Buyer>, nextBuyerId: nat, name: string, tag: int)
    requires BuyersValid(buyers, nextBuyerId)
    requires tag != 0
    requires forall k :: 0 <= k < |buyers| ==> buyers[k].rfid != Some(tag)
    ensures var res := ResolveBuyer(buyers, nextBuyerId, name, Some(tag));
            && (forall i :: 0 <= i < |buyers| && buyers[i].buyerName == name && buyers[i].rfid.None? ==>
                  res == Resolution(buyers[i := buyers[i].(rfid := Some(tag))], nextBuyerId, buyers[i].buyerId))
            && (forall i :: 0 <= i < |buyers| && buyers[i].buyerName == name && buyers[i].rfid.Some? ==>
                  res == Resolution(buyers, nextBuyerId, buyers[i].buyerId))
            && ((forall i :: 0 <= i < |buyers| ==> buyers[i].buyerName != name) ==>
                  res == Resolution(buyers + [Buyer(nextBuyerId, name, Some(tag))], nextBuyerId + 1, nextBuyerId))
  {
    forall i | 0 <= i < |buyers| && buyers[i].buyerName == name
      ensures NamedBuyer(buyers, name) == Some(i)
    {
      assert (((b: Buyer) => b.buyerName == name))(buyers[i]);
    }
  }

  /** Resolving the same request twice gives the same buyer, and the
      second resolution writes nothing. */
  lemma ResolveIdempotent(buyers: seq<Buyer>, nextBuyerId: nat, name: string, rfid: Option<int>)
    requires BuyersValid(buyers, nextBuyerId)
    ensures var first := ResolveBuyer(buyers, nextBuyerId, name, rfid);
            ResolveBuyer(first.buyers, first.nextBuyerId, name, rfid)
              == Resolution(first.buyers, first.nextBuyerId, first.buyerId)
  {
    var first := ResolveBuyer(buyers, nextBuyerId, name, rfid);
    ResolveKeepsValid(buyers, nextBuyerId, name, rfid);
    if Truthy(rfid) {
      match RfidHolder(buyers, rfid.value)
      case Some(h) =>
        RfidHolderSelected(buyers, nextBuyerId, name, rfid.value, h);
      case None =>
        match NamedBuyer(buyers, name)
        case Some(n) =>
          if buyers[n].rfid.None? {
            RfidHolderSelected(first.buyers, first.nextBuyerId, name, rfid.value, n);
          }
        case None =>
          RfidHolderSelected(first.buyers, first.nextBuyerId, name, rfid.value, |buyers|);
    } else {
      match NamedBuyer(buyers, name)
      case Some(n) =>
      case None =>
        NamePathSelected(first.buyers, first.nextBuyerId, name, rfid, |buyers|);
    }
  }
}

=== FILE: common.dfy ===
/** Small helpers shared by the modules of the model. */
module Common {

  /** A value that may be absent: JavaScript's `undefined`/`null`, or a
      lookup that found nothing. */
  datatype Option<T> = None | Some(value: T)

  /** Index of the first element of `s` that satisfies `p`, if any.
      This is the meaning given to `find`, `findIndex`, `findFirst` and
      `findUnique` throughout the model. */
  function FirstIndex<T>(s: seq<T>, p: T -> bool): (r: Option<nat>)
    ensures r.Some? ==> r.value < |s| && p(s[r.value])
    ensures r.Some? ==> forall k :: 0 <= k < r.value ==> !p(s[k])
    ensures r.None? <==> forall k :: 0 <= k < |s| ==> !p(s[k])
  {
    if |s| == 0 then None
    else if p(s[0]) then Some(0)
    else match FirstIndex(s[1..], p)
      case None => None
      case Some(i) => Some(i + 1)
  }
}

=== FILE: dashboard.dfy ===
/** The dashboard handlers that read and write the store: recording a
    sale, decrementing stock for a cart, and the revenue report. Each
    handler takes the request's fields as parameters and returns the
    response it would send. */
module Dashboard {
  import opened Common
  import opened Store
  import opened BuyerResolution
  import opened Revenue

  /** One entry of `itemsBought`. */
  datatype LineItem = LineItem(productName: string, quantity: int)

  datatype SalesResponse = SalesRecorded | InvalidPayload
  {
    function Status(): int { if SalesRecorded? then 200 else 400 }
  }

  /** `buyerName` must be truthy (present and non-empty) and `itemsBought`
      an array (absent stands for any non-array value). */
  predicate ValidPayload(buyerName: Option<string>, itemsBought: Option<seq<LineItem>>)
  {
    buyerName.Some? && buyerName.value != [] && itemsBought.Some?
  }

  /** The buyer-resolution part of CreateSalesData: the lookups by RFID
      and by name and the one create or update they may lead to, carried
      out on the store exactly as ResolveBuyer decides. */
  method FindOrCreateBuyer(db: Database, name: string, rfid: Option<int>) returns (buyer: Buyer)
    requires db.Valid()
    modifies db
    ensures db.Valid()
    ensures var res := ResolveBuyer(old(db.buyers), old(db.nextBuyerId), name, rfid);
            buyer.buyerId == res.buyerId && db.buyers == res.buyers && db.nextBuyerId == res.nextBuyerId
    ensures db.sales == old(db.sales) && db.nextSaleId == old(db.nextSaleId) && db.inventory == old(db.inventory)
  {
    if Truthy(rfid) {
      var holder := RfidHolder(db.buyers, rfid.value);
      if holder.Some? {
        buyer := db.buyers[holder.value];
      } else {
        var named := NamedBuyer(db.buyers, name);
        if named.Some? && db.buyers[named.value].rfid.None? {
          BuyerIndexOf(db.buyers, db.nextBuyerId, named.value);
          buyer := db.UpdateBuyerRfid(db.buyers[named.value].buyerId, rfid.value);
        } else if named.None? {
          buyer := db.CreateBuyer(name, rfid);
        } else {
          buyer := db.buyers[named.value];
        }
      }
    } else {
      var named := NamedBuyer(db.buyers, name);
      if named.None? {
        buyer := db.CreateBuyer(name, None);
      } else {
        buyer := db.buyers[named.value];
      }
    }
  }

  /** Records a sale: resolves the buyer (which may create a buyer or
      attach an RFID to one), then appends one sales row per line item.
      The buyer write and the rows are two separate writes. */
  method CreateSalesData(db: Database, buyerName: Option<string>, itemsBought: Option<seq<LineItem>>,
                         rfid: Option<int>, now: Timestamp)
    returns (resp: SalesResponse)
    requires db.Valid()
    modifies db
    ensures db.Valid()
    ensures db.inventory == old(db.inventory)
    ensures !ValidPayload(buyerName, itemsBought) ==>
              && resp == InvalidPayload
              && db.buyers == old(db.buyers) && db.nextBuyerId == old(db.nextBuyerId)
              && db.sales == old(db.sales) && db.nextSaleId == old(db.nextSaleId)
    ensures ValidPayload(buyerName, itemsBought) ==>
              var items := itemsBought.value;
              var res := ResolveBuyer(old(db.buyers), old(db.nextBuyerId), buyerName.value, rfid);
              && resp == SalesRecorded
              && db.buyers == res.buyers && db.nextBuyerId == res.nextBuyerId
              && |db.sales| == |old(db.sales)| + |items|
              && db.nextSaleId == old(db.nextSaleId) + |items|
              && db.sales[..|old(db.sales)|] == old(db.sales)
              && (forall k :: 0 <= k < |items| ==>
                    db.sales[|old(db.sales)| + k]
                      == Sale(old(db.nextSaleId) + k, res.buyerId, items[k].productName, items[k].quantity,
                              SaleRfid(rfid), Some(now)))
  {
    if !ValidPayload(buyerName, itemsBought) {
      return InvalidPayload;
    }
    var name, items := buyerName.value, itemsBought.value;
    var buyer := FindOrCreateBuyer(db, name, rfid);
    var buyerId, tag := buyer.buyerId, SaleRfid(rfid);
    var rows := seq(|items|, k requires 0 <= k < |items| =>
                      NewSale(buyerId, items[k].productName, items[k].quantity, tag));
    assert forall k :: 0 <= k < |items| ==> rows[k] == NewSale(buyerId, items[k].productName, items[k].quantity, tag);
    ghost var before, firstId := db.sales, db.nextSaleId;
    db.CreateManySales(rows, now);
    assert forall k :: 0 <= k < |items| ==>
             db.sales[|before| + k] == Sale(firstId + k, buyerId, items[k].productName, items[k].quantity, tag, Some(now));
    resp := SalesRecorded;
  }

  /** One entry of the cart sent to `subitemquantity`. */
  datatype CartItem = CartItem(id: int, quantity: int, productName: string)

  datatype QuantityResponse = QuantitiesUpdated | UpdateFailed
  {
    function Status(): int { if QuantitiesUpdated? then 200 else 500 }
  }

  /** The total quantity the cart takes from the product with the given id. */
  function Demand(cart: seq<CartItem>, id: int): int
  {
    if |cart| == 0 then 0
    else Demand(cart[..|cart| - 1], id) + (if cart[|cart| - 1].id == id then cart[|cart| - 1].quantity else 0)
  }

  /** A product the cart does not list keeps its quantity. */
  lemma {:induction false} DemandOfUnlisted(cart: seq<CartItem>, id: int)
    requires forall k :: 0 <= k < |cart| ==> cart[k].id != id
    ensures Demand(cart, id) == 0
  {
    if |cart| > 0 {
      assert forall k :: 0 <= k < |cart| - 1 ==> cart[..|cart| - 1][k] == cart[k];
      DemandOfUnlisted(cart[..|cart| - 1], id);
    }
  }

  /** Every cart entry names a product of the inventory. */
  ghost predicate AllListed(cart: seq<CartItem>, inventory: seq<Product>)
  {
    forall k :: 0 <= k < |cart| ==> exists i :: 0 <= i < |inventory| && inventory[i].id == cart[k].id
  }

  /** Decrements stock for a cart in one transaction: either every listed
      product loses the total quantity the cart takes from it, with no floor
      at zero, or, when some id is unknown, nothing changes. */
  method SubItemQuantityData(db: Database, cart: seq<CartItem>) returns (resp: QuantityResponse)
    requires db.Valid()
    modifies db
    ensures db.Valid()
    ensures db.buyers == old(db.buyers) && db.nextBuyerId == old(db.nextBuyerId)
    ensures db.sales == old(db.sales) && db.nextSaleId == old(db.nextSaleId)
    ensures resp == QuantitiesUpdated <==> AllListed(cart, old(db.inventory))
    ensures resp == QuantitiesUpdated ==>
              && |db.inventory| == |old(db.inventory)|
              && forall i :: 0 <= i < |db.inventory| ==>
                   db.inventory[i] == old(db.inventory)[i].(quantity := old(db.inventory)[i].quantity
                                                                       - Demand(cart, old(db.inventory)[i].id))
    ensures resp == UpdateFailed ==> db.inventory == old(db.inventory)
  {
    var staged := db.inventory;
    var k := 0;
    while k < |cart|
      invariant 0 <= k <= |cart|
      invariant |staged| == |db.inventory|
      invariant forall i :: 0 <= i < |staged| ==>
                  staged[i] == db.inventory[i].(quantity := db.inventory[i].quantity - Demand(cart[..k], db.inventory[i].id))
      invariant AllListed(cart[..k], db.inventory)
    {
      var j := ProductIndex(staged, cart[k].id);
      if j.None? {
        forall i | 0 <= i < |db.inventory| ensures db.inventory[i].id != cart[k].id {
          assert !(((p: Product) => p.id == cart[k].id))(staged[i]);
        }
        return UpdateFailed;
      }
      ghost var before := staged;
      staged := staged[j.value := staged[j.value].(quantity := staged[j.value].quantity - cart[k].quantity)];
      assert cart[..k + 1][..k] == cart[..k];
      forall i | 0 <= i < |staged|
        ensures staged[i] == db.inventory[i].(quantity := db.inventory[i].quantity - Demand(cart[..k + 1], db.inventory[i].id))
      {
        if i != j.value {
          assert db.inventory[i].id != db.inventory[j.value].id;
        }
      }
      assert forall m :: 0 <= m < k ==> cart[..k + 1][m] == cart[..k][m];
      assert db.inventory[j.value].id == cart[k].id;
      k := k + 1;
    }
    assert cart[..k] == cart;
    db.inventory := staged;
    resp := QuantitiesUpdated;
  }

  datatype RevenueResponse =
    | InvalidPeriod
    | RevenueReport(period: string, startDate: Timestamp, endDate: Timestamp, totalRevenue: int,
                    salesHistory: seq<SaleRow>)
  {
    function Status(): int { if RevenueReport? then 200 else 400 }
  }

  /** The revenue report for `day`, `week` or `month`: the sales dated in
      the window, their total at today's catalogue prices, and the sales
      list with buyer names. Any other period is refused. */
  method GetRevenueData(db: Database, period: Option<string>, clock: Clock) returns (resp: RevenueResponse)
    requires ValidClock(clock)
    ensures ParsePeriod(period).None? <==> resp == InvalidPeriod
    ensures ParsePeriod(period).Some? ==>
              var w := WindowFor(ParsePeriod(period).value, clock);
              var included := SalesInWindow(db.sales, w);
              && resp.RevenueReport?
              && resp.period == period.value && resp.startDate == w.start && resp.endDate == w.end
              && resp.totalRevenue == TotalRevenue(included, db.inventory)
              && |resp.salesHistory| == |included|
              && forall k :: 0 <= k < |included| ==> resp.salesHistory[k] == FormatSale(included[k], db.buyers)
  {
    var p := ParsePeriod(period);
    if p.None? {
      return InvalidPeriod;
    }
    var w := WindowFor(p.value, clock);
    var included := SalesInWindow(db.sales, w);
    var names := seq(|included|, k requires 0 <= k < |included| => included[k].productName);
    var catalog := CatalogFor(db.inventory, names);
    var priceMap := BuildPriceMap(catalog);
    forall i | 0 <= i < |included|
      ensures PriceFromMap(priceMap, included[i].productName) == UnitPrice(db.inventory, included[i].productName)
    {
      assert names[i] == included[i].productName;
      CatalogForKeepsPrices(db.inventory, names, included[i].productName);
    }
    ReduceMatchesTotal(0, included, priceMap, db.inventory);
    var total := ReduceRevenue(0, included, priceMap);
    var buyers := db.buyers;
    var rows := seq(|included|, k requires 0 <= k < |included| => FormatSale(included[k], buyers));
    resp := RevenueReport(period.value, w.start, w.end, total, rows);
  }
}

=== FILE: revenue.dfy ===
/** The pure parts of the revenue report: the reporting window for a
    period, the sales that fall in it, the price of a product by name,
    and the revenue sum. Prices are joined by product name against the
    current catalogue, so a report on past sales uses today's prices. */
module Revenue {
  import opened Common
  import opened Store

  const MsPerDay: int := 86_400_000

  /** A reading of the local clock with the calendar fields the report
      needs: the day number, the milliseconds since midnight, the weekday
      (Sunday = 0) and the day of the month (1-based). */
  datatype Clock = Clock(day: int, timeOfDay: int, weekday: int, dayOfMonth: int)

  predicate ValidClock(c: Clock)
  {
    0 <= c.timeOfDay < MsPerDay && 0 <= c.weekday < 7 && 1 <= c.dayOfMonth <= 31
  }

  function Now(c: Clock): Timestamp
  {
    c.day * MsPerDay + c.timeOfDay
  }

  datatype Period = Day | Week | Month

  /** The `period` query parameter; only these three values are accepted. */
  function ParsePeriod(query: Option<string>): (p: Option<Period>)
    ensures p.Some? <==> query == Some("day") || query == Some("week") || query == Some("month")
  {
    match query
    case Some("day") => Some(Day)
    case Some("week") => Some(Week)
    case Some("month") => Some(Month)
    case _ => None
  }

  /** An inclusive range of timestamps. */
  datatype Window = Window(start: Timestamp, end: Timestamp)

  /** Days between the start of the period and today. */
  function DaysBack(p: Period, c: Clock): int
  {
    match p
    case Day => 0
    case Week => c.weekday
    case Month => c.dayOfMonth - 1
  }

  /** The window of a period: from midnight of today, of the last Sunday
      (the day whose weekday is 0), or of the first of the month, up to
      now. */
  function WindowFor(p: Period, c: Clock): (w: Window)
    requires ValidClock(c)
    ensures w.end == Now(c) && w.start <= w.end
    ensures w.start % MsPerDay == 0
    ensures w.end - w.start < MsPerDay * (if p == Day then 1 else if p == Week then 7 else 31)
    ensures p == Day ==> w.start / MsPerDay == c.day
    ensures p == Week ==> var d := w.start / MsPerDay;
                          0 <= c.day - d < 7 && (c.weekday - (c.day - d)) % 7 == 0
    ensures p == Month ==> c.dayOfMonth - (c.day - w.start / MsPerDay) == 1
  {
    Window((c.day - DaysBack(p, c)) * MsPerDay, Now(c))
  }

  /** The day window lies inside the week and the month windows: all three
      end now, and the day window starts last. */
  lemma WindowsNest(c: Clock)
    requires ValidClock(c)
    ensures WindowFor(Week, c).start <= WindowFor(Day, c).start
    ensures WindowFor(Month, c).start <= WindowFor(Day, c).start
    ensures WindowFor(Day, c).end == WindowFor(Week, c).end == WindowFor(Month, c).end
  {
  }

  /** The `gte`/`lte` filter on `sale_date`; a sale without a date is never
      in a window. */
  predicate InWindow(s: Sale, w: Window)
  {
    s.saleDate.Some? && w.start <= s.saleDate.value <= w.end
  }

  /** The sales of the window, in table order. */
  function SalesInWindow(sales: seq<Sale>, w: Window): (r: seq<Sale>)
    ensures forall s :: s in r <==> s in sales && InWindow(s, w)
    ensures |r| <= |sales|
    ensures forall s :: multiset(r)[s] == if InWindow(s, w) then multiset(sales)[s] else 0
  {
    if sales == [] then []
    else
      assert forall s :: s in sales <==> s == sales[0] || s in sales[1..];
      assert sales == [sales[0]] + sales[1..];
      (if InWindow(sales[0], w) then [sales[0]] else []) + SalesInWindow(sales[1..], w)
  }

  /** Every sale counted for today (dated between today's midnight and
      now) is also counted for the week and the month. */
  lemma DaySalesInLongerPeriods(sales: seq<Sale>, c: Clock, s: Sale)
    requires ValidClock(c)
    requires s in sales && s.saleDate.Some? && c.day * MsPerDay <= s.saleDate.value <= Now(c)
    ensures s in SalesInWindow(sales, WindowFor(Day, c))
    ensures s in SalesInWindow(sales, WindowFor(Week, c))
    ensures s in SalesInWindow(sales, WindowFor(Month, c))
  {
    WindowsNest(c);
  }

  /** The selling price of the last catalogue entry with the name, if any. */
  function LastPrice(catalog: seq<Product>, name: string): Option<int>
  {
    if |catalog| == 0 then None
    else if catalog[|catalog| - 1].productName == name then Some(catalog[|catalog| - 1].sellingPrice)
    else LastPrice(catalog[..|catalog| - 1], name)
  }

  /** LastPrice finds a price exactly when the name is in the catalogue,
      and then it is the price of the last entry with that name. */
  lemma {:induction false} LastPriceIsLastEntry(catalog: seq<Product>, name: string)
    ensures LastPrice(catalog, name).None? <==> forall i :: 0 <= i < |catalog| ==> catalog[i].productName != name
    ensures LastPrice(catalog, name).Some? ==>
              exists i :: && 0 <= i < |catalog| && catalog[i].productName == name
                          && LastPrice(catalog, name).value == catalog[i].sellingPrice
                          && forall j :: i < j < |catalog| ==> catalog[j].productName != name
  {
    if |catalog| > 0 {
      var last := |catalog| - 1;
      if catalog[last].productName != name {
        LastPriceIsLastEntry(catalog[..last], name);
        assert forall i :: 0 <= i < last ==> catalog[..last][i] == catalog[i];
      }
    }
  }

  /** The price used for a sold product: 0 when the name is not in the
      catalogue. */
  function UnitPrice(catalog: seq<Product>, name: string): int
  {
    match LastPrice(catalog, name)
    case Some(p) => p
    case None => 0
  }

  /** The catalogue entries whose names occur among the sold products, in
      table order (the `in: productNames` query). */
  function CatalogFor(inventory: seq<Product>, names: seq<string>): (catalog: seq<Product>)
    ensures |catalog| <= |inventory|
    ensures forall p :: p in catalog ==> p in inventory && p.productName in names
  {
    if |inventory| == 0 then []
    else
      var last := inventory[|inventory| - 1];
      CatalogFor(inventory[..|inventory| - 1], names) + (if last.productName in names then [last] else [])
  }

  /** Restricting the catalogue to the sold products changes no price of a
      sold product. */
  lemma {:induction false} CatalogForKeepsPrices(inventory: seq<Product>, names: seq<string>, name: string)
    requires name in names
    ensures LastPrice(CatalogFor(inventory, names), name) == LastPrice(inventory, name)
  {
    if |inventory| > 0 {
      var init := inventory[..|inventory| - 1];
      var last := inventory[|inventory| - 1];
      CatalogForKeepsPrices(init, names, name);
      if last.productName in names {
        var c := CatalogFor(init, names) + [last];
        assert c[..|c| - 1] == CatalogFor(init, names);
      } else {
        assert last.productName != name;
        assert LastPrice(inventory, name) == LastPrice(init, name);
        assert CatalogFor(inventory, names) == CatalogFor(init, names) + [] == CatalogFor(init, names);
      }
    }
  }

  /** The price-map lookup `priceMap.get(name) || 0`. */
  function PriceFromMap(priceMap: map<string, int>, name: string): int
  {
    if name in priceMap then priceMap[name] else 0
  }

  /** The price map holds, for every catalogue name, the price of its last
      entry, and nothing else. */
  ghost predicate PriceMapOf(priceMap: map<string, int>, catalog: seq<Product>)
  {
    forall name :: (name in priceMap <==> LastPrice(catalog, name).Some?)
                   && (name in priceMap ==> priceMap[name] == LastPrice(catalog, name).value)
  }

  /** Fills the price map entry by entry, a later entry overwriting an
      earlier one with the same name. */
  method BuildPriceMap(catalog: seq<Product>) returns (priceMap: map<string, int>)
    ensures PriceMapOf(priceMap, catalog)
  {
    priceMap := map[];
    var k := 0;
    while k < |catalog|
      invariant 0 <= k <= |catalog|
      invariant PriceMapOf(priceMap, catalog[..k])
    {
      assert catalog[..k + 1][..k] == catalog[..k];
      priceMap := priceMap[catalog[k].productName := catalog[k].sellingPrice];
      k := k + 1;
    }
    assert catalog[..k] == catalog;
  }

  /** Reference definition of the report's total: the sum over the sales of
      quantity times unit price. */
  function TotalRevenue(sales: seq<Sale>, catalog: seq<Product>): int
  {
    if sales == [] then 0
    else sales[0].quantity * UnitPrice(catalog, sales[0].productName) + TotalRevenue(sales[1..], catalog)
  }

  /** The `reduce` over the sales with the price map, from left to right. */
  function ReduceRevenue(sum: int, sales: seq<Sale>, priceMap: map<string, int>): int
    decreases sales
  {
    if sales == [] then sum
    else ReduceRevenue(sum + sales[0].quantity * PriceFromMap(priceMap, sales[0].productName), sales[1..], priceMap)
  }

  /** When the map gives every sold product its unit price, the reduce
      computes the reference total. */
  lemma {:induction false} ReduceMatchesTotal(sum: int, sales: seq<Sale>, priceMap: map<string, int>, catalog: seq<Product>)
    requires forall i :: 0 <= i < |sales| ==>
               PriceFromMap(priceMap, sales[i].productName) == UnitPrice(catalog, sales[i].productName)
    ensures ReduceRevenue(sum, sales, priceMap) == sum + TotalRevenue(sales, catalog)
    decreases sales
  {
    if sales != [] {
      assert PriceFromMap(priceMap, sales[0].productName) == UnitPrice(catalog, sales[0].productName);
      ReduceMatchesTotal(sum + sales[0].quantity * UnitPrice(catalog, sales[0].productName), sales[1..], priceMap, catalog);
    }
  }

  const UnknownBuyer: string := "Unknown Buyer"

  /** A row of the report's sales list. */
  datatype SaleRow = SaleRow(saleId: nat, buyerName: string, productName: string, quantity: int,
                             saleDate: Option<Timestamp>)

  /** `sale.buyers?.buyer_name || 'Unknown Buyer'`: the name of the sale's
      buyer, unless there is no such buyer or its name is empty. */
  function BuyerNameOf(buyers: seq<Buyer>, buyerId: nat): (name: string)
    ensures name != []
    ensures name != UnknownBuyer ==> exists i :: 0 <= i < |buyers| && buyers[i].buyerId == buyerId && buyers[i].buyerName == name
    ensures (forall i :: 0 <= i < |buyers| ==> buyers[i].buyerId != buyerId) ==> name == UnknownBuyer
    ensures forall i :: && 0 <= i < |buyers| && buyers[i].buyerId == buyerId && buyers[i].buyerName != []
                        && (forall k :: 0 <= k < i ==> buyers[k].buyerId != buyerId)
                        ==> name == buyers[i].buyerName
  {
    match BuyerIndex(buyers, buyerId)
    case Some(i) => if buyers[i].buyerName != [] then buyers[i].buyerName else UnknownBuyer
    case None => UnknownBuyer
  }

  function FormatSale(s: Sale, buyers: seq<Buyer>): SaleRow
  {
    SaleRow(s.saleId, BuyerNameOf(buyers, s.buyerId), s.productName, s.quantity, s.saleDate)
  }
}

=== FILE: store.dfy ===
/** The three database tables the dashboard works on (`buyers`,
    `sales_history`, `inventory_bookstore`), held in memory, and the few
    record-level operations of the database client that the dashboard
    uses. Finding a record means taking the first match; creating one
    appends it with a fresh id; updating one replaces it in place. */
module Store {
  import opened Common

  /** A point in time on the server's local clock, in milliseconds. */
  type Timestamp = int

  /** A row of `buyers`. `rfid` is null for buyers known only by name. */
  datatype Buyer = Buyer(buyerId: nat, buyerName: string, rfid: Option<int>)

  /** A row of `sales_history`. `rfid` is the tag used at the time of the
      sale, copied independently of the buyer's current tag. */
  datatype Sale = Sale(saleId: nat, buyerId: nat, productName: string, quantity: int,
                       rfid: Option<int>, saleDate: Option<Timestamp>)

  /** The data of a `sales_history` row before the store assigns its id
      and its default date. */
  datatype NewSale = NewSale(buyerId: nat, productName: string, quantity: int, rfid: Option<int>)

  /** A row of `inventory_bookstore`. The decimal selling price is kept
      as an integer number of the smallest currency unit. */
  datatype Product = Product(id: int, productName: string, quantity: int, sellingPrice: int)

  function RfidHolder(buyers: seq<Buyer>, tag: int): Option<nat>
  {
    FirstIndex(buyers, (b: Buyer) => b.rfid == Some(tag))
  }

  function NamedBuyer(buyers: seq<Buyer>, name: string): Option<nat>
  {
    FirstIndex(buyers, (b: Buyer) => b.buyerName == name)
  }

  function BuyerIndex(buyers: seq<Buyer>, buyerId: nat): Option<nat>
  {
    FirstIndex(buyers, (b: Buyer) => b.buyerId == buyerId)
  }

  function ProductIndex(inventory: seq<Product>, id: int): Option<nat>
  {
    FirstIndex(inventory, (p: Product) => p.id == id)
  }

  /** The unique constraints of `buyers`: the id (below the next id to be
      handed out), the name, and every non-null RFID. */
  ghost predicate BuyersValid(buyers: seq<Buyer>, nextBuyerId: nat)
  {
    && (forall i :: 0 <= i < |buyers| ==> buyers[i].buyerId < nextBuyerId)
    && (forall i, j :: 0 <= i < j < |buyers| ==>
          && buyers[i].buyerId != buyers[j].buyerId
          && buyers[i].buyerName != buyers[j].buyerName
          && (buyers[i].rfid.Some? ==> buyers[i].rfid != buyers[j].rfid))
  }

  ghost predicate SalesValid(sales: seq<Sale>, nextSaleId: nat)
  {
    && (forall i :: 0 <= i < |sales| ==> sales[i].saleId < nextSaleId)
    && (forall i, j :: 0 <= i < j < |sales| ==> sales[i].saleId != sales[j].saleId)
  }

  ghost predicate ProductsValid(inventory: seq<Product>)
  {
    forall i, j :: 0 <= i < j < |inventory| ==> inventory[i].id != inventory[j].id
  }

  /** Under the unique constraints a buyer is found by its own id. */
  lemma BuyerIndexOf(buyers: seq<Buyer>, nextBuyerId: nat, i: nat)
    requires BuyersValid(buyers, nextBuyerId) && i < |buyers|
    ensures BuyerIndex(buyers, buyers[i].buyerId) == Some(i)
  {
    var r := BuyerIndex(buyers, buyers[i].buyerId);
    assert (((b: Buyer) => b.buyerId == buyers[i].buyerId))(buyers[i]);
    assert r.Some? && r.value <= i;
  }

  /** The database. One instance stands for the shared client. */
  class Database {
    var buyers: seq<Buyer>
    var sales: seq<Sale>
    var inventory: seq<Product>
    var nextBuyerId: nat
    var nextSaleId: nat

    ghost predicate Valid()
      reads this
    {
      BuyersValid(buyers, nextBuyerId) && SalesValid(sales, nextSaleId) && ProductsValid(inventory)
    }

    constructor (inventory: seq<Product>)
      requires ProductsValid(inventory)
      ensures Valid()
      ensures buyers == [] && sales == [] && this.inventory == inventory
    {
      buyers, sales, this.inventory := [], [], inventory;
      nextBuyerId, nextSaleId := 1, 1;
    }

    /** `buyers.create`: the caller guarantees the name and the RFID are
        still free, so the unique constraints cannot be violated. */
    method CreateBuyer(name: string, rfid: Option<int>) returns (created: Buyer)
      requires Valid()
      requires NamedBuyer(buyers, name).None?
      requires rfid.Some? ==> RfidHolder(buyers, rfid.value).None?
      modifies this
      ensures Valid()
      ensures created == Buyer(old(nextBuyerId), name, rfid)
      ensures buyers == old(buyers) + [created] && nextBuyerId == old(nextBuyerId) + 1
      ensures sales == old(sales) && nextSaleId == old(nextSaleId) && inventory == old(inventory)
    {
      created := Buyer(nextBuyerId, name, rfid);
      buyers := buyers + [created];
      nextBuyerId := nextBuyerId + 1;
    }

    /** `buyers.update` of the RFID of the buyer with the given id; the
        caller guarantees that no buyer holds the tag yet. */
    method UpdateBuyerRfid(buyerId: nat, tag: int) returns (updated: Buyer)
      requires Valid()
      requires BuyerIndex(buyers, buyerId).Some?
      requires RfidHolder(buyers, tag).None?
      modifies this
      ensures Valid()
      ensures var i := BuyerIndex(old(buyers), buyerId).value;
              updated == old(buyers)[i].(rfid := Some(tag)) && buyers == old(buyers)[i := updated]
      ensures nextBuyerId == old(nextBuyerId)
      ensures sales == old(sales) && nextSaleId == old(nextSaleId) && inventory == old(inventory)
    {
      var i := BuyerIndex(buyers, buyerId).value;
      updated := buyers[i].(rfid := Some(tag));
      buyers := buyers[i := updated];
    }

    /** `sales_history.createMany`: appends the rows in order, each with a
        fresh id and the current time as its date. */
    method CreateManySales(rows: seq<NewSale>, now: Timestamp)
      requires Valid()
      modifies this
      ensures Valid()
      ensures |sales| == |old(sales)| + |rows| && sales[..|old(sales)|] == old(sales)
      ensures forall k :: 0 <= k < |rows| ==>
                sales[|old(sales)| + k] == Sale(old(nextSaleId) + k, rows[k].buyerId, rows[k].productName,
                                                rows[k].quantity, rows[k].rfid, Some(now))
      ensures nextSaleId == old(nextSaleId) + |rows|
      ensures buyers == old(buyers) && nextBuyerId == old(nextBuyerId) && inventory == old(inventory)
    {
      var first := nextSaleId;
      var added := seq(|rows|, k requires 0 <= k < |rows| =>
                         Sale(first + k, rows[k].buyerId, rows[k].productName,
                              rows[k].quantity, rows[k].rfid, Some(now)));
      assert forall k :: 0 <= k < |rows| ==> added[k].saleId == first + k;
      sales := sales + added;
      nextSaleId := nextSaleId + |rows|;
      assert forall k :: 0 <= k < |rows| ==> sales[|old(sales)| + k] == added[k];
    }
  }
}

=== FILE: todos.dfy ===
/** The in-memory todo list: one list shared by all requests, changed in
    place by appending, replacing an entry and removing an entry. */
module Todos {
  import opened Common

  datatype Todo = Todo(id: int, title: string, completed: bool)

  /** The fields present in an update's body; an absent field is kept. */
  datatype TodoPatch = TodoPatch(title: Option<string>, completed: Option<bool>)

  /** `{ ...todo, ...body }`. */
  function Patched(todo: Todo, patch: TodoPatch): (patched: Todo)
    ensures patched.id == todo.id
    ensures patched.title == (if patch.title.Some? then patch.title.value else todo.title)
    ensures patched.completed == (if patch.completed.Some? then patch.completed.value else todo.completed)
    ensures patch == TodoPatch(None, None) ==> patched == todo
  {
    Todo(todo.id,
         if patch.title.Some? then patch.title.value else todo.title,
         if patch.completed.Some? then patch.completed.value else todo.completed)
  }

  datatype TodoResponse =
    | Found(todo: Todo)
    | Created(todo: Todo)
    | Updated(todo: Todo)
    | Deleted(todo: Todo)
    | NotFound
    | TitleRequired
  {
    function Status(): int
    {
      match this
      case Created(_) => 201
      case NotFound => 404
      case TitleRequired => 400
      case _ => 200
    }
  }

  /** The test `t => t.id === id` that `find` and `findIndex` apply. */
  function WithId(id: int): Todo -> bool
  {
    (t: Todo) => t.id == id
  }

  /** `i` is the index of the first entry with the id. */
  ghost predicate FirstWithId(todos: seq<Todo>, id: int, i: int)
  {
    0 <= i < |todos| && FirstIndex(todos, WithId(id)) == Some(i)
  }

  /** No entry has the id. */
  ghost predicate NoId(todos: seq<Todo>, id: int)
  {
    FirstIndex(todos, WithId(id)).None?
  }

  class TodoList {
    var todos: seq<Todo>

    constructor ()
      ensures todos == [Todo(1, "Learn Hono", false), Todo(2, "Build a Todo API", false)]
    {
      todos := [Todo(1, "Learn Hono", false), Todo(2, "Build a Todo API", false)];
    }

    /** `todos.findIndex(t => t.id === id)`: the first index with the id,
        or -1. */
    method FindIndex(id: int) returns (index: int)
      ensures index == -1 <==> NoId(todos, id)
      ensures index != -1 ==> FirstWithId(todos, id, index)
    {
      index := 0;
      while index < |todos|
        invariant 0 <= index <= |todos|
        invariant forall k :: 0 <= k < index ==> todos[k].id != id
      {
        if todos[index].id == id {
          assert WithId(id)(todos[index]);
          assert forall k :: 0 <= k < index ==> !WithId(id)(todos[k]);
          return;
        }
        index := index + 1;
      }
      assert forall k :: 0 <= k < |todos| ==> !WithId(id)(todos[k]);
      index := -1;
    }

    /** `getTodoData`: the first entry with the id, or 404. */
    method GetTodo(id: int) returns (resp: TodoResponse)
      ensures resp.Found? || resp == NotFound
      ensures resp == NotFound <==> NoId(todos, id)
      ensures resp.Found? ==> exists i :: FirstWithId(todos, id, i) && resp.todo == todos[i]
    {
      var index := FindIndex(id);
      if index == -1 {
        return NotFound;
      }
      resp := Found(todos[index]);
    }

    /** `createTodoData`: a missing or empty title is refused; otherwise
        the todo is appended with id `length + 1`, not yet completed. */
    method CreateTodo(title: Option<string>) returns (resp: TodoResponse)
      modifies this
      ensures (title.None? || title.value == []) ==> resp == TitleRequired && todos == old(todos)
      ensures title.Some? && title.value != [] ==>
                && resp == Created(Todo(|old(todos)| + 1, title.value, false))
                && todos == old(todos) + [resp.todo]
    {
      if title.None? || title.value == [] {
        return TitleRequired;
      }
      var created := Todo(|todos| + 1, title.value, false);
      todos := todos + [created];
      resp := Created(created);
    }

    /** `updateTodoData`: merges the body into the first entry with the id;
        404 when there is none. */
    method UpdateTodo(id: int, patch: TodoPatch) returns (resp: TodoResponse)
      modifies this
      ensures NoId(old(todos), id) ==> resp == NotFound && todos == old(todos)
      ensures forall i :: FirstWithId(old(todos), id, i) ==>
                && todos == old(todos)[i := Patched(old(todos)[i], patch)]
                && resp == Updated(todos[i])
    {
      var index := FindIndex(id);
      if index == -1 {
        return NotFound;
      }
      todos := todos[index := Patched(todos[index], patch)];
      resp := Updated(todos[index]);
    }

    /** `deleteTodoData`: removes the first entry with the id and returns
        it; 404 when there is none. */
    method DeleteTodo(id: int) returns (resp: TodoResponse)
      modifies this
      ensures NoId(old(todos), id) ==> resp == NotFound && todos == old(todos)
      ensures forall i :: FirstWithId(old(todos), id, i) ==>
                && todos == old(todos)[..i] + old(todos)[i + 1..]
                && resp == Deleted(old(todos)[i])
    {
      var index := FindIndex(id);
      if index == -1 {
        return NotFound;
      }
      resp := Deleted(todos[index]);
      todos := todos[..index] + todos[index + 1..];
    }
  }

  /** Ids are not unique after a delete: on a list numbered 1..n in order,
      deleting any entry but the last and then creating a todo hands out an
      id the last entry already has. */
  lemma CreateAfterDeleteReusesId(todos: seq<Todo>, i: nat, title: string)
    requires forall k :: 0 <= k < |todos| ==> todos[k].id == k + 1
    requires i + 1 < |todos|
    ensures var after := todos[..i] + todos[i + 1..];
            var created := Todo(|after| + 1, title, false);
            exists k :: 0 <= k < |after| && after[k].id == created.id
  {
    var after := todos[..i] + todos[i + 1..];
    assert after[|after| - 1] == todos[|todos| - 1];
  }
}

=== FILE: top_sold.dfy ===
/** The "top sold items" aggregate: sales grouped by product name with
    their quantities summed, ordered by that sum from largest down, and
    the first five kept. */
module TopSold {
  import opened Store

  const TopCount: nat := 5

  datatype ProductTotal = ProductTotal(productName: string, totalQuantity: int)

  /** Sum of the quantities of the sales of one product. */
  function QuantitySold(sales: seq<Sale>, name: string): int
  {
    if |sales| == 0 then 0
    else QuantitySold(sales[..|sales| - 1], name)
         + (if sales[|sales| - 1].productName == name then sales[|sales| - 1].quantity else 0)
  }

  /** The distinct product names of the sales, in order of first sale. */
  function ProductNames(sales: seq<Sale>): (names: seq<string>)
    ensures forall n :: n in names <==> exists i :: 0 <= i < |sales| && sales[i].productName == n
    ensures forall i, j :: 0 <= i < j < |names| ==> names[i] != names[j]
  {
    if |sales| == 0 then []
    else
      var init := sales[..|sales| - 1];
      assert forall i :: 0 <= i < |init| ==> init[i] == sales[i];
      var names := ProductNames(init);
      var last := sales[|sales| - 1].productName;
      if last in names then names else names + [last]
  }

  /** One group per product name with its summed quantity (`groupBy`). */
  function Grouped(sales: seq<Sale>): seq<ProductTotal>
  {
    var names := ProductNames(sales);
    seq(|names|, i requires 0 <= i < |names| => ProductTotal(names[i], QuantitySold(sales, names[i])))
  }

  ghost predicate SortedDesc(s: seq<ProductTotal>)
  {
    forall i, j :: 0 <= i < j < |s| ==> s[i].totalQuantity >= s[j].totalQuantity
  }

  ghost predicate Distinct(s: seq<ProductTotal>)
  {
    forall i, j :: 0 <= i < j < |s| ==> s[i] != s[j]
  }

  /** Inserts a group into a list ordered by decreasing total, after the
      groups with a larger or equal total. */
  function Insert(x: ProductTotal, s: seq<ProductTotal>): (r: seq<ProductTotal>)
    ensures |r| == |s| + 1
    ensures forall y :: y in r <==> y == x || y in s
  {
    if s == [] then [x]
    else if x.totalQuantity > s[0].totalQuantity then [x] + s
    else
      assert forall y :: y in s <==> y == s[0] || y in s[1..];
      [s[0]] + Insert(x, s[1..])
  }

  lemma {:induction false} InsertSorted(x: ProductTotal, s: seq<ProductTotal>)
    requires SortedDesc(s)
    ensures SortedDesc(Insert(x, s))
  {
    if s != [] && x.totalQuantity <= s[0].totalQuantity {
      var tail := Insert(x, s[1..]);
      InsertSorted(x, s[1..]);
      assert forall m :: 0 <= m < |s[1..]| ==> s[1..][m].totalQuantity <= s[0].totalQuantity;
      assert forall j :: 0 <= j < |tail| ==> tail[j] in tail;
      assert forall j :: 0 <= j < |tail| ==> tail[j].totalQuantity <= s[0].totalQuantity;
    }
  }

  lemma {:induction false} InsertDistinct(x: ProductTotal, s: seq<ProductTotal>)
    requires Distinct(s) && x !in s
    ensures Distinct(Insert(x, s))
  {
    if s != [] && x.totalQuantity <= s[0].totalQuantity {
      var tail := Insert(x, s[1..]);
      InsertDistinct(x, s[1..]);
      assert forall j :: 0 <= j < |tail| ==> tail[j] in tail;
      assert forall m :: 0 <= m < |s[1..]| ==> s[1..][m] != s[0];
      assert forall j :: 0 <= j < |tail| ==> tail[j] != s[0];
    }
  }

  /** The groups ordered by decreasing total (`orderBy: _sum desc`). */
  function SortDesc(s: seq<ProductTotal>): (r: seq<ProductTotal>)
    ensures |r| == |s|
    ensures forall y :: y in r <==> y in s
  {
    if s == [] then []
    else
      assert forall y :: y in s <==> y == s[0] || y in s[1..];
      Insert(s[0], SortDesc(s[1..]))
  }

  /** The sort orders by decreasing total and, given distinct groups,
      repeats none. */
  lemma {:induction false} SortDescSortedDistinct(s: seq<ProductTotal>)
    ensures SortedDesc(SortDesc(s))
    ensures Distinct(s) ==> Distinct(SortDesc(s))
  {
    if s != [] {
      SortDescSortedDistinct(s[1..]);
      InsertSorted(s[0], SortDesc(s[1..]));
      if Distinct(s) {
        assert Distinct(s[1..]);
        assert forall m :: 0 <= m < |s[1..]| ==> s[1..][m] != s[0];
        InsertDistinct(s[0], SortDesc(s[1..]));
      }
    }
  }

  function Min(a: nat, b: nat): nat { if a <= b then a else b }

  /** The response of `gettopsolditems`. */
  function TopSoldItems(sales: seq<Sale>): (top: seq<ProductTotal>)
    ensures |top| <= TopCount
  {
    var sorted := SortDesc(Grouped(sales));
    if |sorted| <= TopCount then sorted else sorted[..TopCount]
  }

  /** Some entry of the list is for the named product. */
  ghost predicate Listed(top: seq<ProductTotal>, name: string)
  {
    exists m :: 0 <= m < |top| && top[m].productName == name
  }

  /** The top-sold list holds min(5, number of products sold) distinct
      products, each with its summed quantity, in decreasing order of
      that sum. */
  lemma TopSoldEntries(sales: seq<Sale>)
    ensures |TopSoldItems(sales)| == Min(|ProductNames(sales)|, TopCount)
    ensures SortedDesc(TopSoldItems(sales))
    ensures forall i :: 0 <= i < |TopSoldItems(sales)| ==>
              TopSoldItems(sales)[i].productName in ProductNames(sales)
    ensures forall i :: 0 <= i < |TopSoldItems(sales)| ==>
              TopSoldItems(sales)[i].totalQuantity == QuantitySold(sales, TopSoldItems(sales)[i].productName)
    ensures forall i, j :: 0 <= i < j < |TopSoldItems(sales)| ==>
              TopSoldItems(sales)[i].productName != TopSoldItems(sales)[j].productName
  {
    var names := ProductNames(sales);
    var groups := Grouped(sales);
    var sorted := SortDesc(groups);
    var top := TopSoldItems(sales);
    assert forall y :: y in groups ==> y.productName in names && y.totalQuantity == QuantitySold(sales, y.productName);
    assert Distinct(groups);
    SortDescSortedDistinct(groups);
    assert forall i :: 0 <= i < |top| ==> top[i] == sorted[i] && sorted[i] in groups;
  }

  /** No product left out of the top-sold list sold more than any product
      in it. */
  lemma TopSoldComplete(sales: seq<Sale>, k: nat, i: nat)
    requires k < |sales| && i < |TopSoldItems(sales)|
    requires !Listed(TopSoldItems(sales), sales[k].productName)
    ensures QuantitySold(sales, sales[k].productName) <= TopSoldItems(sales)[i].totalQuantity
  {
    var names := ProductNames(sales);
    var groups := Grouped(sales);
    var sorted := SortDesc(groups);
    var top := TopSoldItems(sales);
    var n := sales[k].productName;
    assert n in names;
    var idx :| 0 <= idx < |names| && names[idx] == n;
    var g := groups[idx];
    assert g in sorted;
    var j :| 0 <= j < |sorted| && sorted[j] == g;
    SortDescSortedDistinct(groups);
    assert j >= |top|;
    assert sorted[i] == top[i];
  }
}
